=== FILE: README.md ===
# mcp-server-database in Dafny

A model of the core of a small database server for the Model Context
Protocol. The server answers three tools: list the registered tables,
describe one table, and run a read-only SQL query. A query first passes a
safety validator. Only an accepted query reaches the SQL executor, and the
executor caps the rows it returns.

The model has one module per source file, plus three support modules:

- `Wrappers` holds `Option` and `Result`.
- `Text` holds the ASCII string operations the validator and the schema
  summary use: `strip`, `rstrip`, `upper`, `join`, `split`, and "contains
  as a substring".
- `Ordering` holds Python's string order and `sorted` over a set of
  strings.
- `Models` holds the records `ColumnInfo`, `TableInfo`, `QueryResult` and
  `QueryValidationResult`, with their constructor defaults. A row value is
  an integer, an opaque real, text, NULL or a blob.
- `Validator` models `QueryValidator.validate`. It covers normalisation,
  the empty-query short cut, the SELECT/WITH prefix test, the
  `\b[A-Z]+\b` tokenizer against the nine blocked keywords, and the
  trailing-semicolon rule. Reasons are a datatype rendered to the source's
  messages.
- `Executor` models what `QueryExecutor.execute` does with the engine's
  answer: the column names, the 100-row cap, the truncation flag and the
  kept-row count. The engine's answer is an input of type `EngineOutcome`.
- `Schema` models `SchemaManager` as a map from name to table, with
  register, list, describe and the summary text.
- `Server` models `DatabaseMCPServer`. The validator and the executor are
  function-valued parameters. `HandleRunQuery` also returns the list of
  queries handed to the executor, so "the executor is not called" is a
  property of the result. `Deployed` wires in the modelled validator and
  executor.

The semicolon rule strips trailing whitespace and then every trailing `;`.
So `SELECT 1;;` passes. `SELECT 1; ;` fails, because the space stops the
`;`-stripping before the first `;`.

## Model

| member | source | states |
|---|---|---|
| Models.Defaults | src/mcp_database/models.py:7-39 | a column is nullable and a table column-less by default; a result defaults to count 0 and not truncated, even when that disagrees with its rows; a verdict defaults to no errors, even when marked invalid |
| Text.Strip | src/mcp_database/validator.py:25 | `strip()` is a piece of the text with only whitespace cut from before and after it; it is empty exactly for all-whitespace text, and otherwise both its ends are non-whitespace |
| Text.RStrip | src/mcp_database/validator.py:42 | `rstrip(chars)` is a prefix; all it cuts off is in `chars`; what is left does not end in `chars` |
| Text.StripTrimmed | src/mcp_database/validator.py:25 | text that neither starts nor ends with whitespace is its own `strip()` |
| Text.Upper | src/mcp_database/validator.py:25 | `upper()` keeps the length and raises each ASCII lower-case letter |
| Text.NormalizeSameUpToCase | src/mcp_database/validator.py:25 | texts differing only in letter case normalise to the same text |
| Validator.TokensMatchPattern | src/mcp_database/validator.py:36 | the tokenizer finds a word exactly when it is a non-empty A-Z run with a word boundary on each side |
| Validator.BlockedFound | src/mcp_database/validator.py:36-39 | the found keywords are strictly sorted and are exactly the blocked keywords among the tokens |
| Validator.BlockedFoundWholeWords | src/mcp_database/validator.py:36-39 | the found keywords are exactly the blocked keywords that occur as whole words |
| Validator.NothingBlockedIff | src/mcp_database/validator.py:38 | no keyword is found exactly when no whole-word span spells a blocked keyword |
| Validator.SeparatorIff | src/mcp_database/validator.py:42 | a `;` survives the stripping exactly when some `;` is followed by a non-`;` and, at or after that, by a non-whitespace character |
| Validator.Messages | src/mcp_database/validator.py:28-43 | each error is the message of the reason at the same position |
| Validator.Validate | src/mcp_database/validator.py:24-45 | valid exactly when there are no errors; at most three errors |
| Validator.EmptyQueryShortCircuits | src/mcp_database/validator.py:25-29 | the verdict is exactly invalid with the single error "Empty query" iff the text is all whitespace |
| Validator.StatementKindReported | src/mcp_database/validator.py:31-33 | "Only SELECT queries are allowed" is reported iff the normalised text is non-empty and starts with neither SELECT nor WITH |
| Validator.BlockedKeywordsReported | src/mcp_database/validator.py:35-39 | a blocked-keyword reason is present iff a blocked keyword is a whole word of the non-empty normalised text; it lists exactly those keywords, sorted, each once |
| Validator.BlockedMessageNames | src/mcp_database/validator.py:39 | the blocked-keyword message contains every keyword it lists |
| Validator.MultipleStatementsReported | src/mcp_database/validator.py:41-43 | "Multiple statements not allowed" is reported iff the text is non-blank and some `;` is followed by a non-`;` character and, at or after that, by a non-whitespace character |
| Validator.ReasonsInOrder | src/mcp_database/validator.py:27-45 | reasons appear in the fixed order prefix, keywords, semicolon; "Empty query" only ever appears alone |
| Validator.ReasonsReported | src/mcp_database/validator.py:45 | every reason found appears as its message among the errors, and the query is invalid exactly when some reason was found |
| Validator.AcceptedIff | src/mcp_database/validator.py:24-45 | a query is accepted iff it is non-blank, starts with SELECT or WITH, has no blocked keyword as a whole word, and no `;` is followed by a non-`;` character and, at or after that, by a non-whitespace character |
| Validator.CaseInsensitive | src/mcp_database/validator.py:25-42 | queries that differ only in letter case get the same verdict and errors |
| Validator.LeadingKeyword | src/mcp_database/validator.py:32-36 | a blocked keyword at the head of normalised text, followed by a non-word character or by nothing, is a whole word there, and the text does not start with SELECT or WITH |
| Validator.RejectsBlockedStatement | tests/test_validator.py:24-42 | a statement starting with a blocked keyword is invalid, is reported as not a SELECT, and has an error naming the keyword |
| Validator.ConcatUnblocked | src/mcp_database/validator.py:36-38 | two texts with no blocked whole word, joined where a word cannot run across the seam, still have none: every token of the whole is a token of one side, spelling the same text |
| Validator.AcceptsPlainSelect | tests/test_validator.py:8-11 | `SELECT * FROM users` is valid with no errors |
| Validator.RejectsDropTable | tests/test_validator.py:24-27 | `DROP TABLE users` is invalid, and one of its errors contains DROP |
| Validator.RejectsEmpty | tests/test_validator.py:44-47 | the empty query `""` and the blank query `" \t\n"` each give exactly invalid with "Empty query" |
| Validator.TrailingSemicolonsTolerated | src/mcp_database/validator.py:42 | `SELECT 1;` and `SELECT 1;;` leave no `;` behind |
| Validator.InnerSemicolonsCaught | src/mcp_database/validator.py:42 | `SELECT 1; DROP TABLE x` and `SELECT 1; ;` keep a `;` after the stripping |
| Validator.RejectsSeparatedStatements | src/mcp_database/validator.py:41-43 | any text with a `;` followed by a non-`;` and later a non-whitespace character is invalid and reports "Multiple statements not allowed" |
| Validator.RejectsStackedDrop | tests/test_validator.py:49-52 | `SELECT 1; DROP TABLE x` is invalid with "Multiple statements not allowed" among its errors |
| Validator.RejectsSpacedSemicolons | src/mcp_database/validator.py:42-43 | `SELECT 1; ;` is invalid with "Multiple statements not allowed" among its errors |
| Ordering.SortedSeq | src/mcp_database/schema.py:22 | `sorted` of a set is strictly increasing, holds exactly the set's elements, and has the set's size |
| Ordering.SortedUnique | src/mcp_database/schema.py:22 | two strictly sorted lists with the same elements are equal |
| Ordering.SortedSeqCharacterized | src/mcp_database/schema.py:22 | any strictly sorted complete listing of a set is its `sorted` |
| Executor.Names | src/mcp_database/executor.py:26 | the i-th column name is the name of the i-th description entry |
| Executor.ColumnNames | src/mcp_database/executor.py:26 | no description gives no columns; otherwise one name per entry, in order |
| Executor.Execute | src/mcp_database/executor.py:25-35 | an engine error comes back as a failure with its message; otherwise the rows are a prefix of the engine's of length min(n, 100), truncated iff n > 100, and the count is the kept rows |
| Executor.ExecuteWellFormed | src/mcp_database/executor.py:28-34 | an executed result counts its rows, holds at most 100, and is truncated only when full |
| Executor.CapKeepsPrefix | src/mcp_database/executor.py:28-29 | up to 100 engine rows are all kept and not truncated; beyond that exactly the first 100 are kept |
| Executor.CapIdempotent | src/mcp_database/executor.py:28-29 | capping the kept rows again keeps all of them and reports no truncation |
| Executor.TwoHundredRows | tests/test_executor.py:56-66 | 200 engine rows give a truncated result of exactly the first 100 rows, counted as 100 |
| Executor.ColumnNamesExample | tests/test_executor.py:39-41 | the description `id, name, email` gives those column names in order |
| Schema.RegisterTable | src/mcp_database/schema.py:12-18 | the table is filed under its name, the key set gains just that name, and every other entry is unchanged |
| Schema.ListTables | src/mcp_database/schema.py:20-22 | the listing is strictly sorted, holds exactly the registered names, one per table |
| Schema.DescribeTable | src/mcp_database/schema.py:24-33 | a table is found iff its name is registered, and then it is the registered entry |
| Schema.ColumnTexts | src/mcp_database/schema.py:40 | the i-th column text is the i-th column as `name (TYPE)` |
| Schema.Lines | src/mcp_database/schema.py:38-41 | one summary line per given name, in the given order |
| Schema.SummaryLines | src/mcp_database/schema.py:38-41 | one line per registered table, in sorted name order |
| Schema.GetSchemaSummary | src/mcp_database/schema.py:35-42 | the summary is empty iff no table is registered |
| Schema.EmptyRegistry | src/mcp_database/schema.py:9-10 | a fresh registry is valid, lists and describes nothing, and summarises to "" |
| Schema.RegisterKeepsValid | src/mcp_database/schema.py:18 | registration keeps every entry filed under its own name |
| Schema.DescribeAfterRegister | src/mcp_database/schema.py:18 | describing a table right after registering it finds it |
| Schema.RegisterLeavesOthers | src/mcp_database/schema.py:18 | registering leaves every other name's lookup, present or absent, as it was |
| Schema.RegisterListing | src/mcp_database/schema.py:18-22 | re-registering a name leaves the listing unchanged; a new name makes it one longer; the listing is the old names plus the new one |
| Schema.RegisterIdempotent | src/mcp_database/schema.py:18 | registering the same table twice equals registering it once |
| Schema.ListingExample | tests/test_schema.py:32-36 | registering zebra, alpha, middle lists alpha, middle, zebra |
| Schema.SummaryMentionsLine | src/mcp_database/schema.py:38-42 | each registered table's line occurs in the summary |
| Schema.LineStartsWithName | src/mcp_database/schema.py:41 | a table's line starts with its name and a colon |
| Schema.SummaryMentionsTable | tests/test_schema.py:38-44 | the summary contains each registered table's name followed by a colon |
| Schema.LineMentionsColumn | src/mcp_database/schema.py:40-41 | each column's `name (TYPE)` occurs in its table's line |
| Schema.SummaryMentionsColumn | tests/test_schema.py:38-44 | the summary contains `name (TYPE)` for each column of each table |
| Schema.TableLineSingle | src/mcp_database/schema.py:40-41 | a table line has no line feed when its names and types have none |
| Schema.SummarySplitsIntoLines | src/mcp_database/schema.py:35-42 | splitting a non-empty summary at line feeds gives back the lines, one per table in name order, when no name or type has a line feed |
| Server.HandleListTables | src/mcp_database/server.py:22-24 | the reply is strictly sorted and holds exactly the registered names |
| Server.ColumnPayloads | src/mcp_database/server.py:41-43 | each column becomes name, type and nullable, in order |
| Server.ToPayload | src/mcp_database/server.py:38-44 | the reply keeps the table name, and each column keeps its position, name, type and nullability |
| Server.HandleDescribeTable | src/mcp_database/server.py:26-44 | the reply is absent iff the table is not registered, and is otherwise that table's payload, which in a valid registry carries the requested name |
| Server.DescribeRoundTrip | src/mcp_database/server.py:38-44 | rebuilding from the describe reply gives back the registered table exactly |
| Server.HandleRunQuery | src/mcp_database/server.py:46-67 | a rejected query gets the validator's errors verbatim and no executor call; an accepted one is handed to the executor once; a result is passed on field by field; a failure becomes its text as the only message |
| Server.ExecutorOnlyAfterAcceptance | src/mcp_database/server.py:55-59 | the executor gets at most one call, only with this query, and gets one iff the validator accepts |
| Server.ErrorIff | src/mcp_database/server.py:55-67 | the reply is an error iff the validator rejects or the executor fails |
| Server.RejectionExample | tests/test_server.py:89-96 | a validator rejecting with "SELECT required" gives exactly that error, and the executor is not called |
| Server.ExecutionFailureExample | tests/test_server.py:98-103 | an accepted query whose execution fails with "table not found" gets exactly that message |
| Server.DeployedGuarantees | src/mcp_database/server.py:55-65 | with the modelled parts, a result set means the query was valid, the count equals the rows and is at most 100, and truncation means more than 100 engine rows; every error has a message; a rejected query makes no executor call |
| Server.DeployedRejectsBlocked | tests/test_server.py:105-112 | a statement starting with a blocked keyword gets an error naming it, and the engine is not called |

## Left out

- The SQLite connection, `execute_setup` and `close`. They are I/O on a
  foreign engine. The engine's answer to a query is the input
  `EngineOutcome`, or, in `Server.Deployed`, a function from query to
  outcome.
- The executor's constructor, which opens a database path, and the package
  `__init__`, which only re-exports names.
- Text.Strip, Text.Upper: Python applies Unicode rules to `strip`,
  `upper` and `\b` (for example `ß` upper-cases to `SS`, and non-ASCII
  letters are word characters). The model assumes ASCII. It treats every
  non-ASCII character as non-whitespace, as a non-word character, and as
  unchanged by upper-casing.
- Validator.TokensMatchPattern: the regular-expression engine is replaced
  by an explicit tokenizer over ASCII word characters. That is letters,
  digits and `_`, the `\b` word class for ASCII text.
- Floating-point row values are an opaque payload; no arithmetic is done
  on them.
- The accepted examples `SELECT id, name FROM users WHERE id = 1` and
  `WITH cte AS (SELECT id FROM users) SELECT * FROM cte`
  (tests/test_validator.py:13-22) are not stated as concrete lemmas. The
  route that proves `AcceptsPlainSelect` runs out of resource on texts of
  this length. Each would have to be cut into literal pieces, with a
  separate lemma for every piece. `AcceptedIff` states the general
  condition they meet.
- The blocked-statement examples other than `DROP TABLE users`
  (tests/test_validator.py:29-42) have no literal lemma of their own.
  `RejectsBlockedStatement` covers every statement that starts with a
  blocked keyword.
- Aliasing of the mutable records. In Python the dataclasses are mutable.
  `register_table` files the caller's own `TableInfo` object, and
  `describe_table` hands back that same object (schema.py:18, 33).
  Renaming a registered table or editing its column list afterwards
  therefore changes what the registry holds. That can break the
  name-to-entry match that `Schema.Valid` states. The model's records are
  immutable values, so mutating a registered object after registration is
  not modelled.
- The describe reply is a dictionary in the source. The model uses a
  record with the same three fields per column.
- Threads and locking: the source has none.

=== FILE: executor.dfy ===
/** The executor's handling of what the SQL engine returns: the column names
    come from the cursor description, the rows are capped at
    `MAX_RESULT_ROWS`, and the result records the cap and the kept count.
    The engine itself is outside the model; its answer is an input. */
module Executor {
  import opened Wrappers
  import opened Models

  /** The most rows a result ever carries. */
  const MAX_RESULT_ROWS: nat := 100

  /** One entry of a cursor description; only its first component, the
      column name, is used. */
  datatype ColumnDescription = ColumnDescription(name: string)

  /** What the engine does with a query: it raises with a message, or it
      yields an optional description (absent for statements without a result
      set) and every row of the result, in engine order. */
  datatype EngineOutcome =
    | EngineError(message: string)
    | Fetched(description: Option<seq<ColumnDescription>>, rows: seq<Row>)

  function Min(a: nat, b: nat): nat {
    if a <= b then a else b
  }

  /** The names of the described columns, in order. */
  function Names(description: seq<ColumnDescription>): (names: seq<string>)
    ensures |names| == |description|
    ensures forall i :: 0 <= i < |description| ==> names[i] == description[i].name
  {
    if description == [] then [] else [description[0].name] + Names(description[1..])
  }

  /** The result's column names: the described names, or none when there is
      no description (an empty description lists no names either). */
  function ColumnNames(description: Option<seq<ColumnDescription>>): (names: seq<string>)
    ensures description.None? ==> names == []
    ensures description.Some? ==>
      && |names| == |description.value|
      && forall i :: 0 <= i < |names| ==> names[i] == description.value[i].name
  {
    match description
    case None => []
    case Some(entries) => Names(entries)
  }

  /** `QueryExecutor.execute` after the engine call. An engine error comes
      back as a failure carrying its message. Otherwise the result keeps the
      first `MAX_RESULT_ROWS` rows in engine order, is marked truncated
      exactly when the engine produced more, and counts the rows it kept,
      not the rows the engine produced. */
  function Execute(outcome: EngineOutcome): (r: Result<QueryResult, string>)
    ensures r.Failure? <==> outcome.EngineError?
    ensures outcome.EngineError? ==> r == Failure(outcome.message)
    ensures outcome.Fetched? ==>
      && r.value.columns == ColumnNames(outcome.description)
      && r.value.rows <= outcome.rows
      && |r.value.rows| == Min(|outcome.rows|, MAX_RESULT_ROWS)
      && (r.value.truncated <==> |outcome.rows| > MAX_RESULT_ROWS)
      && r.value.rowCount == |r.value.rows|
  {
    match outcome
    case EngineError(message) => Failure(message)
    case Fetched(description, all) =>
      var kept := if |all| > MAX_RESULT_ROWS then all[..MAX_RESULT_ROWS] else all;
      Success(QueryResult(
        columns := ColumnNames(description),
        rows := kept,
        rowCount := |kept|,
        truncated := |all| > MAX_RESULT_ROWS))
  }

  /** The invariant every executed result keeps, and which a bare
      `QueryResult` does not: the count is the number of rows, at most
      `MAX_RESULT_ROWS`, and a result with fewer rows than the cap is not
      marked truncated. */
  predicate WellFormed(result: QueryResult) {
    && result.rowCount == |result.rows|
    && |result.rows| <= MAX_RESULT_ROWS
    && (result.truncated ==> |result.rows| == MAX_RESULT_ROWS)
  }

  lemma ExecuteWellFormed(outcome: EngineOutcome)
    requires outcome.Fetched?
    ensures WellFormed(Execute(outcome).value)
  {
  }

  /** Up to the cap nothing is lost: the result holds every engine row and
      is not truncated; past the cap exactly the first `MAX_RESULT_ROWS`
      rows are kept. */
  lemma CapKeepsPrefix(outcome: EngineOutcome)
    requires outcome.Fetched?
    ensures |outcome.rows| <= MAX_RESULT_ROWS ==>
      Execute(outcome).value.rows == outcome.rows && !Execute(outcome).value.truncated
    ensures |outcome.rows| > MAX_RESULT_ROWS ==>
      Execute(outcome).value.rows == outcome.rows[..MAX_RESULT_ROWS]
  {
    var kept := Execute(outcome).value.rows;
    if |outcome.rows| <= MAX_RESULT_ROWS {
      assert kept == outcome.rows[..|kept|];
    }
  }

  /** Capping is idempotent: running the kept rows through the executor
      again keeps all of them and reports no truncation. */
  lemma CapIdempotent(outcome: EngineOutcome)
    requires outcome.Fetched?
    ensures var again := Execute(Fetched(outcome.description, Execute(outcome).value.rows)).value;
      again.rows == Execute(outcome).value.rows && !again.truncated
  {
    CapKeepsPrefix(Fetched(outcome.description, Execute(outcome).value.rows));
  }

  /** Two hundred engine rows, as in the repository's truncation example:
      the result is truncated and holds exactly one hundred of them. */
  lemma TwoHundredRows(description: Option<seq<ColumnDescription>>, rows: seq<Row>)
    requires |rows| == 200
    ensures var r := Execute(Fetched(description, rows)).value;
      r.truncated && r.rowCount == 100 && |r.rows| == 100 && r.rows == rows[..100]
  {
    CapKeepsPrefix(Fetched(description, rows));
  }

  /** A description of `id`, `name`, `email` gives those columns in that
      order; a statement without a description gives none. */
  lemma ColumnNamesExample()
    ensures ColumnNames(Some([ColumnDescription("id"), ColumnDescription("name"),
                              ColumnDescription("email")])) == ["id", "name", "email"]
    ensures ColumnNames(None) == []
  {
  }
}

=== FILE: models.dfy ===
/** The records exchanged between the validator, the executor, the schema
    registry and the request facade, with the defaults their constructors
    supply. */
module Models {

  newtype byte = b: int | 0 <= b < 256

  /** One scalar cell of a result row, as the SQL engine hands it back:
      an integer, a floating-point number (kept opaque), text, NULL or a
      binary blob. */
  datatype Value =
    | Integer(i: int)
    | Real(payload: nat)
    | Str(s: string)
    | Null
    | Blob(bytes: seq<byte>)

  type Row = seq<Value>

  /** Metadata about one column; a column is nullable unless stated. */
  datatype ColumnInfo = ColumnInfo(name: string, dataType: string, nullable: bool := true)

  /** Metadata about one table; a table has no columns unless stated. */
  datatype TableInfo = TableInfo(name: string, columns: seq<ColumnInfo> := [])

  /** A result set. Construction does not tie `rowCount` to `rows`; only the
      executor establishes that relation. */
  datatype QueryResult = QueryResult(
    columns: seq<string>,
    rows: seq<Row>,
    rowCount: int := 0,
    truncated: bool := false)

  /** The validator's verdict. Construction does not tie `valid` to
      `errors`; only the validator establishes that relation. */
  datatype QueryValidationResult = QueryValidationResult(valid: bool, errors: seq<string> := [])

  /** The constructor defaults, and the fact that they leave a result whose
      count disagrees with its rows and a verdict whose flag disagrees with
      its (empty) error list. */
  lemma Defaults()
    ensures ColumnInfo("id", "INTEGER").nullable
    ensures TableInfo("users").columns == []
    ensures var r := QueryResult(["id"], [[Integer(1)]]);
            r.rowCount == 0 && !r.truncated && r.rowCount != |r.rows|
    ensures var v := QueryValidationResult(false);
            v.errors == [] && !v.valid
  {
  }
}

=== FILE: ordering.dfy ===
/** The order Python's `sorted` puts strings in, and `sorted` itself applied
    to a finite set of strings. */
module Ordering {

  /** Python's `<` on `str`: lexicographic by code point, with a proper prefix
      before any of its extensions. */
  predicate Less(a: string, b: string)
    decreases |a|
  {
    if a == [] then b != []
    else b != [] && (a[0] < b[0] || (a[0] == b[0] && Less(a[1..], b[1..])))
  }

  lemma {:induction false} LessIrreflexive(a: string)
    ensures !Less(a, a)
    decreases |a|
  {
    if a != [] {
      LessIrreflexive(a[1..]);
    }
  }

  lemma {:induction false} LessAsymmetric(a: string, b: string)
    requires Less(a, b)
    ensures !Less(b, a)
    decreases |a|
  {
    if a != [] && a[0] == b[0] {
      LessAsymmetric(a[1..], b[1..]);
    }
  }

  lemma {:induction false} LessTransitive(a: string, b: string, c: string)
    requires Less(a, b) && Less(b, c)
    ensures Less(a, c)
    decreases |a|
  {
    if a != [] && a[0] == b[0] && b[0] == c[0] {
      LessTransitive(a[1..], b[1..], c[1..]);
    }
  }

  lemma {:induction false} LessTotal(a: string, b: string)
    ensures a == b || Less(a, b) || Less(b, a)
    decreases |a|
  {
    if a != [] && b != [] && a[0] == b[0] {
      LessTotal(a[1..], b[1..]);
      assert a == [a[0]] + a[1..] && b == [b[0]] + b[1..];
    }
  }

  lemma LessAsymmetricEverywhere()
    ensures forall a, b :: Less(a, b) ==> !Less(b, a)
  {
    forall a, b | Less(a, b)
      ensures !Less(b, a)
    {
      LessAsymmetric(a, b);
    }
  }

  /** Every element strictly precedes every later one: sorted and free of
      duplicates. */
  predicate StrictlySorted(xs: seq<string>) {
    forall i, j :: 0 <= i < j < |xs| ==> Less(xs[i], xs[j])
  }

  /** `m` is the least element of `s`. */
  predicate IsLeast(m: string, s: set<string>) {
    m in s && forall y :: y in s ==> y == m || Less(m, y)
  }

  lemma {:induction false} LeastOf(s: set<string>) returns (m: string)
    requires s != {}
    ensures IsLeast(m, s)
    decreases s
  {
    var x :| x in s;
    if s == {x} {
      m := x;
    } else {
      var m' := LeastOf(s - {x});
      LessTotal(x, m');
      if Less(x, m') {
        m := x;
        forall y | y in s && y != x
          ensures Less(x, y)
        {
          if y != m' {
            LessTransitive(x, m', y);
          }
        }
      } else {
        m := m';
      }
    }
  }

  lemma LeastExists(s: set<string>)
    requires s != {}
    ensures exists m :: IsLeast(m, s)
  {
    var m := LeastOf(s);
  }

  /** `sorted(s)`: the elements of `s`, each once, in increasing order. */
  function SortedSeq(s: set<string>): (r: seq<string>)
    ensures StrictlySorted(r)
    ensures forall x :: x in r <==> x in s
    ensures |r| == |s|
    decreases s
  {
    if s == {} then []
    else
      LeastExists(s);
      LessAsymmetricEverywhere();
      var m :| IsLeast(m, s);
      var rest := SortedSeq(s - {m});
      assert forall j :: 0 <= j < |rest| ==> rest[j] in s && rest[j] != m;
      [m] + rest
  }

  /** A strictly sorted sequence is determined by its elements. */
  lemma {:induction false} SortedUnique(xs: seq<string>, ys: seq<string>)
    requires StrictlySorted(xs) && StrictlySorted(ys)
    requires forall x :: x in xs <==> x in ys
    ensures xs == ys
    decreases |xs|
  {
    assert xs != [] ==> xs[0] in ys;
    assert ys != [] ==> ys[0] in xs;
    if xs != [] {
      if xs[0] != ys[0] {
        var i :| 0 <= i < |ys| && ys[i] == xs[0];
        var j :| 0 <= j < |xs| && xs[j] == ys[0];
        assert Less(ys[0], xs[0]) && Less(xs[0], ys[0]);
        LessAsymmetric(ys[0], xs[0]);
      }
      forall x
        ensures x in xs[1..] <==> x in ys[1..]
      {
        if x in xs[1..] {
          var i :| 0 <= i < |xs| - 1 && xs[1..][i] == x;
          assert Less(xs[0], xs[i + 1]);
          LessIrreflexive(x);
          assert x in xs;
          assert x in ys;
          var k :| 0 <= k < |ys| && ys[k] == x;
          assert k != 0;
          assert ys[1..][k - 1] == x;
        }
        if x in ys[1..] {
          var i :| 0 <= i < |ys| - 1 && ys[1..][i] == x;
          assert Less(ys[0], ys[i + 1]);
          LessIrreflexive(x);
          assert x in ys;
          assert x in xs;
          var k :| 0 <= k < |xs| && xs[k] == x;
          assert k != 0;
          assert xs[1..][k - 1] == x;
        }
      }
      SortedUnique(xs[1..], ys[1..]);
      assert xs == [xs[0]] + xs[1..] && ys == [ys[0]] + ys[1..];
    }
  }

  /** Sorting a set is the only way to list it strictly sorted, so a listing
      that is strictly sorted and complete is `sorted(s)`. */
  lemma SortedSeqCharacterized(s: set<string>, xs: seq<string>)
    requires StrictlySorted(xs) && forall x :: x in xs <==> x in s
    ensures SortedSeq(s) == xs
  {
    SortedUnique(SortedSeq(s), xs);
  }
}

=== FILE: schema.dfy ===
/** The schema registry: table metadata keyed by table name, with upsert,
    sorted listing, lookup and a one-line-per-table summary. */
module Schema {
  import opened Wrappers
  import opened Text
  import opened Ordering
  import opened Models

  /** `SchemaManager`; its only state is the name-to-table dictionary. */
  datatype SchemaManager = SchemaManager(tables: map<string, TableInfo>)

  /** A freshly constructed registry knows no table. */
  const EMPTY: SchemaManager := SchemaManager(map[])

  /** Every entry is filed under its own table's name. Registration keeps
      this, and the empty registry has it. */
  predicate Valid(m: SchemaManager) {
    forall name :: name in m.tables ==> m.tables[name].name == name
  }

  /** `register_table`: the table is filed under its name, replacing any
      earlier entry of that name, and no other entry changes. */
  function RegisterTable(m: SchemaManager, table: TableInfo): (m': SchemaManager)
    ensures table.name in m'.tables && m'.tables[table.name] == table
    ensures m'.tables.Keys == m.tables.Keys + {table.name}
    ensures forall name :: name in m.tables && name != table.name ==>
      m'.tables[name] == m.tables[name]
  {
    SchemaManager(m.tables[table.name := table])
  }

  /** `list_tables`: every registered name exactly once, in increasing
      order. */
  function ListTables(m: SchemaManager): (names: seq<string>)
    ensures StrictlySorted(names)
    ensures forall name :: name in names <==> name in m.tables
    ensures |names| == |m.tables|
  {
    SortedSeq(m.tables.Keys)
  }

  /** `describe_table`: the registered table, or nothing for an unknown
      name. */
  function DescribeTable(m: SchemaManager, name: string): (r: Option<TableInfo>)
    ensures r.Some? <==> name in m.tables
    ensures r.Some? ==> r.value == m.tables[name]
  {
    if name in m.tables then Some(m.tables[name]) else None
  }

  /** One column in the summary: `name (TYPE)`. */
  function ColumnText(c: ColumnInfo): string {
    c.name + " (" + c.dataType + ")"
  }

  function ColumnTexts(columns: seq<ColumnInfo>): (texts: seq<string>)
    ensures |texts| == |columns|
    ensures forall i :: 0 <= i < |columns| ==> texts[i] == ColumnText(columns[i])
  {
    if columns == [] then [] else [ColumnText(columns[0])] + ColumnTexts(columns[1..])
  }

  /** One table in the summary: its name, a colon, and its columns separated
      by commas. */
  function TableLine(name: string, table: TableInfo): string {
    name + ": " + Join(ColumnTexts(table.columns), ", ")
  }

  /** The summary lines of the tables named in `names`, in that order. */
  function Lines(m: SchemaManager, names: seq<string>): (lines: seq<string>)
    requires forall i :: 0 <= i < |names| ==> names[i] in m.tables
    ensures |lines| == |names|
    ensures forall i :: 0 <= i < |names| ==> lines[i] == TableLine(names[i], m.tables[names[i]])
  {
    if names == [] then [] else [TableLine(names[0], m.tables[names[0]])] + Lines(m, names[1..])
  }

  /** The summary lines, one per registered table in increasing name
      order. */
  function SummaryLines(m: SchemaManager): (lines: seq<string>)
    ensures |lines| == |m.tables|
    ensures forall i :: 0 <= i < |lines| ==>
      var name := ListTables(m)[i]; lines[i] == TableLine(name, m.tables[name])
  {
    Lines(m, ListTables(m))
  }

  /** `get_schema_summary`: the table lines joined by line feeds; an empty
      registry summarises to the empty string. */
  function GetSchemaSummary(m: SchemaManager): (summary: string)
    ensures m.tables == map[] <==> summary == []
  {
    var lines := SummaryLines(m);
    assert lines != [] ==> |lines[0]| > 0 && |Join(lines, "\n")| >= |lines[0]|;
    Join(lines, "\n")
  }

  // ---------------------------------------------------------------------
  // Registration.
  // ---------------------------------------------------------------------

  /** A fresh registry is valid, lists nothing, describes nothing and
      summarises to the empty string. */
  lemma EmptyRegistry(name: string)
    ensures Valid(EMPTY)
    ensures ListTables(EMPTY) == []
    ensures DescribeTable(EMPTY, name) == None
    ensures GetSchemaSummary(EMPTY) == ""
  {
  }

  lemma RegisterKeepsValid(m: SchemaManager, table: TableInfo)
    requires Valid(m)
    ensures Valid(RegisterTable(m, table))
  {
  }

  /** Looking a table up right after registering it finds it. */
  lemma DescribeAfterRegister(m: SchemaManager, table: TableInfo)
    ensures DescribeTable(RegisterTable(m, table), table.name) == Some(table)
  {
  }

  /** Registering a table does not change what any other name looks up
      to, present or absent. */
  lemma RegisterLeavesOthers(m: SchemaManager, table: TableInfo, name: string)
    requires name != table.name
    ensures DescribeTable(RegisterTable(m, table), name) == DescribeTable(m, name)
  {
  }

  /** Registering a name again replaces its entry and does not duplicate it
      in the listing; registering a new name adds it once to the listing. */
  lemma RegisterListing(m: SchemaManager, table: TableInfo)
    ensures table.name in m.tables ==> ListTables(RegisterTable(m, table)) == ListTables(m)
    ensures table.name !in m.tables ==>
      |ListTables(RegisterTable(m, table))| == |ListTables(m)| + 1
    ensures forall name :: name in ListTables(RegisterTable(m, table)) <==>
      name == table.name || name in ListTables(m)
  {
    var m' := RegisterTable(m, table);
    if table.name in m.tables {
      assert m'.tables.Keys == m.tables.Keys;
    }
  }

  /** Registering the same table twice is the same as registering it once. */
  lemma RegisterIdempotent(m: SchemaManager, table: TableInfo)
    ensures RegisterTable(RegisterTable(m, table), table) == RegisterTable(m, table)
  {
  }

  /** The repository's sorting example: `zebra`, `alpha` and `middle`
      registered in that order are listed alphabetically. */
  lemma ListingExample()
    ensures ListTables(RegisterTable(RegisterTable(RegisterTable(EMPTY,
      TableInfo("zebra")), TableInfo("alpha")), TableInfo("middle")))
      == ["alpha", "middle", "zebra"]
  {
    var m := RegisterTable(RegisterTable(RegisterTable(EMPTY,
      TableInfo("zebra")), TableInfo("alpha")), TableInfo("middle"));
    var expected := ["alpha", "middle", "zebra"];
    assert Less("alpha", "middle") && Less("middle", "zebra") && Less("alpha", "zebra");
    assert StrictlySorted(expected);
    SortedSeqCharacterized(m.tables.Keys, expected);
  }

  // ---------------------------------------------------------------------
  // The summary.
  // ---------------------------------------------------------------------

  /** Every registered table's line occurs in the summary. */
  lemma SummaryMentionsLine(m: SchemaManager, name: string) returns (b: int)
    requires name in m.tables
    ensures OccursAt(GetSchemaSummary(m), TableLine(name, m.tables[name]), b)
  {
    var names := ListTables(m);
    var i :| 0 <= i < |names| && names[i] == name;
    JoinContains(SummaryLines(m), "\n", i);
    b :| OccursAt(Join(SummaryLines(m), "\n"), SummaryLines(m)[i], b);
  }

  lemma LineStartsWithName(name: string, table: TableInfo)
    ensures OccursAt(TableLine(name, table), name + ":", 0)
  {
    assert TableLine(name, table)[..|name| + 1] == name + ":";
  }

  /** Every registered table's name occurs in the summary followed by a
      colon. */
  lemma SummaryMentionsTable(m: SchemaManager, name: string)
    requires name in m.tables
    ensures Contains(GetSchemaSummary(m), TableLine(name, m.tables[name]))
    ensures Contains(GetSchemaSummary(m), name + ":")
  {
    var b := SummaryMentionsLine(m, name);
    LineStartsWithName(name, m.tables[name]);
    OccursWithin(GetSchemaSummary(m), TableLine(name, m.tables[name]), name + ":", b, 0);
  }

  /** Every column of a table occurs in the table's line. */
  lemma LineMentionsColumn(name: string, table: TableInfo, j: nat) returns (a: int)
    requires j < |table.columns|
    ensures OccursAt(TableLine(name, table), ColumnText(table.columns[j]), a)
  {
    var texts := ColumnTexts(table.columns);
    JoinContains(texts, ", ", j);
    var k :| OccursAt(Join(texts, ", "), texts[j], k);
    OccursInside(name + ": ", Join(texts, ", "), "", texts[j], k);
    assert name + ": " + Join(texts, ", ") + "" == TableLine(name, table);
    a := |name + ": "| + k;
  }

  /** Every column of every registered table occurs in the summary as
      `name (TYPE)`. */
  lemma SummaryMentionsColumn(m: SchemaManager, name: string, j: nat)
    requires name in m.tables && j < |m.tables[name].columns|
    ensures Contains(GetSchemaSummary(m), ColumnText(m.tables[name].columns[j]))
  {
    var b := SummaryMentionsLine(m, name);
    var a := LineMentionsColumn(name, m.tables[name], j);
    OccursWithin(GetSchemaSummary(m), TableLine(name, m.tables[name]),
      ColumnText(m.tables[name].columns[j]), b, a);
  }

  /** No line feed in any table name, column name or column type. */
  predicate SingleLineNames(m: SchemaManager) {
    forall name :: name in m.tables ==>
      && '\n' !in name
      && forall c :: c in m.tables[name].columns ==> '\n' !in c.name && '\n' !in c.dataType
  }

  lemma TableLineSingle(m: SchemaManager, name: string)
    requires SingleLineNames(m) && name in m.tables
    ensures '\n' !in TableLine(name, m.tables[name])
  {
    var columns := m.tables[name].columns;
    forall i | 0 <= i < |columns|
      ensures '\n' !in ColumnTexts(columns)[i]
    {
      assert columns[i] in columns;
    }
    JoinAvoids(ColumnTexts(columns), ", ", '\n');
  }

  /** The summary splits back into its lines: with no line feed inside a
      name or type, splitting a non-empty registry's summary at line feeds
      gives one line per table in name order. */
  lemma SummarySplitsIntoLines(m: SchemaManager)
    requires SingleLineNames(m) && m.tables != map[]
    ensures Split(GetSchemaSummary(m), '\n') == SummaryLines(m)
  {
    var lines := SummaryLines(m);
    forall i | 0 <= i < |lines|
      ensures '\n' !in lines[i]
    {
      TableLineSingle(m, ListTables(m)[i]);
    }
    assert |lines| > 0 by {
      var k :| k in m.tables;
    }
    SplitJoin(lines, '\n');
  }
}

=== FILE: server.dfy ===
/** The request facade: it answers the list, describe and run-query tools by
    delegating to the schema registry, the validator and the executor. The
    validator and the executor are parameters, so the facade's rules hold
    whatever they do; `Deployed` plugs in the modelled ones. */
module Server {
  import opened Wrappers
  import opened Ordering
  import Text
  import opened Models
  import Validator
  import Executor
  import opened Schema

  /** `DatabaseMCPServer`: its three collaborators. The validator and the
      executor are whatever functions they are given; an executor that
      raises answers with `Failure` and the exception's text. */
  datatype DatabaseServer = DatabaseServer(
    validator: string -> QueryValidationResult,
    executor: string -> Result<QueryResult, string>,
    schema: SchemaManager)

  /** The run-query reply: an error with its messages, or a result set. */
  datatype RunQueryResponse =
    | ErrorResponse(messages: seq<string>)
    | RowsResponse(columns: seq<string>, rows: seq<Row>, rowCount: int, truncated: bool)

  /** A reply together with every query the executor was handed while
      producing it, in order. */
  datatype Handled = Handled(response: RunQueryResponse, executorCalls: seq<string>)

  /** One column of the describe reply. */
  datatype ColumnPayload = ColumnPayload(name: string, typeName: string, nullable: bool)

  /** The describe reply. */
  datatype TablePayload = TablePayload(name: string, columns: seq<ColumnPayload>)

  /** `handle_list_tables`: the registry's listing, unchanged. */
  function HandleListTables(s: DatabaseServer): (names: seq<string>)
    ensures StrictlySorted(names)
    ensures forall name :: name in names <==> name in s.schema.tables
  {
    ListTables(s.schema)
  }

  function ColumnPayloads(columns: seq<ColumnInfo>): (payloads: seq<ColumnPayload>)
    ensures |payloads| == |columns|
    ensures forall i :: 0 <= i < |columns| ==>
      payloads[i] == ColumnPayload(columns[i].name, columns[i].dataType, columns[i].nullable)
  {
    if columns == [] then []
    else
      var c := columns[0];
      [ColumnPayload(c.name, c.dataType, c.nullable)] + ColumnPayloads(columns[1..])
  }

  /** The describe reply for a table: its name, and its columns in order
      with their type and nullability. */
  function ToPayload(table: TableInfo): (p: TablePayload)
    ensures p.name == table.name && |p.columns| == |table.columns|
    ensures forall i :: 0 <= i < |table.columns| ==>
      && p.columns[i].name == table.columns[i].name
      && p.columns[i].typeName == table.columns[i].dataType
      && p.columns[i].nullable == table.columns[i].nullable
  {
    TablePayload(table.name, ColumnPayloads(table.columns))
  }

  /** `handle_describe_table`: nothing for an unregistered name, otherwise
      the registered table's describe reply. */
  function HandleDescribeTable(s: DatabaseServer, name: string): (r: Option<TablePayload>)
    ensures r.None? <==> name !in s.schema.tables
    ensures r.Some? ==> r.value == ToPayload(s.schema.tables[name])
    ensures Valid(s.schema) && r.Some? ==> r.value.name == name
  {
    match DescribeTable(s.schema, name)
    case None => None
    case Some(table) => Some(ToPayload(table))
  }

  /** `handle_run_query`. A rejected query is answered with the validator's
      messages verbatim and never reaches the executor. An accepted query
      is handed to the executor exactly once; its result set is passed on
      field by field, and its failure becomes an error with the failure's
      text as the only message. */
  function HandleRunQuery(s: DatabaseServer, query: string): (h: Handled)
    ensures var v := s.validator(query);
      !v.valid ==> h.response == ErrorResponse(v.errors) && h.executorCalls == []
    ensures s.validator(query).valid ==> h.executorCalls == [query]
    ensures s.validator(query).valid && s.executor(query).Failure? ==>
      h.response == ErrorResponse([s.executor(query).error])
    ensures var r := s.executor(query);
      s.validator(query).valid && r.Success? ==>
      h.response == RowsResponse(r.value.columns, r.value.rows, r.value.rowCount, r.value.truncated)
  {
    var validation := s.validator(query);
    if !validation.valid then
      Handled(ErrorResponse(validation.errors), [])
    else
      var response :=
        match s.executor(query)
        case Failure(message) => ErrorResponse([message])
        case Success(result) =>
          RowsResponse(result.columns, result.rows, result.rowCount, result.truncated);
      Handled(response, [query])
  }

  // ---------------------------------------------------------------------
  // Properties of the facade, for any validator and executor.
  // ---------------------------------------------------------------------

  /** Rebuilds a table from its describe reply; a device for stating that
      the reply loses nothing, with no counterpart in the server itself. */
  function FromPayload(p: TablePayload): (table: TableInfo)
    ensures table.name == p.name && |table.columns| == |p.columns|
    ensures forall i :: 0 <= i < |p.columns| ==>
      table.columns[i] == ColumnInfo(p.columns[i].name, p.columns[i].typeName, p.columns[i].nullable)
  {
    TableInfo(p.name, seq(|p.columns|, i requires 0 <= i < |p.columns| =>
      ColumnInfo(p.columns[i].name, p.columns[i].typeName, p.columns[i].nullable)))
  }

  /** The describe reply loses nothing: the registered table is rebuilt
      from it exactly. */
  lemma DescribeRoundTrip(s: DatabaseServer, name: string)
    requires name in s.schema.tables
    ensures FromPayload(HandleDescribeTable(s, name).value) == s.schema.tables[name]
  {
    var table := s.schema.tables[name];
    var back := FromPayload(ToPayload(table));
    assert back.columns == table.columns;
  }

  /** The executor is handed the query at most once, and only when the
      validator accepts it. */
  lemma ExecutorOnlyAfterAcceptance(s: DatabaseServer, query: string)
    ensures |HandleRunQuery(s, query).executorCalls| <= 1
    ensures HandleRunQuery(s, query).executorCalls != [] <==> s.validator(query).valid
    ensures forall q :: q in HandleRunQuery(s, query).executorCalls ==> q == query
  {
  }

  /** A run-query reply is an error exactly when the validator rejects the
      query or the executor fails on it. */
  lemma ErrorIff(s: DatabaseServer, query: string)
    ensures HandleRunQuery(s, query).response.ErrorResponse? <==>
      !s.validator(query).valid || s.executor(query).Failure?
  {
  }

  /** The repository's rejection scenario: a validator that rejects with one
      message yields exactly that message, and the executor, even one that
      would fail, is never called. */
  lemma RejectionExample()
    ensures var s := DatabaseServer(
        q => QueryValidationResult(false, ["SELECT required"]),
        q => Failure("unreachable"),
        EMPTY);
      HandleRunQuery(s, "bad query") == Handled(ErrorResponse(["SELECT required"]), [])
  {
  }

  /** The repository's failing-execution scenario: an accepted query whose
      execution raises "table not found" is answered with that text. */
  lemma ExecutionFailureExample()
    ensures var s := DatabaseServer(
        q => QueryValidationResult(true),
        q => Failure("table not found"),
        EMPTY);
      HandleRunQuery(s, "SELECT 1") == Handled(ErrorResponse(["table not found"]), ["SELECT 1"])
  {
  }

  // ---------------------------------------------------------------------
  // The facade wired to the modelled validator and executor.
  // ---------------------------------------------------------------------

  /** The server as deployed: the modelled validator, and the modelled
      executor in front of an engine that answers each query somehow. */
  function Deployed(engine: string -> Executor.EngineOutcome, schema: SchemaManager): (s: DatabaseServer)
    ensures forall q :: s.validator(q) == Validator.Validate(q)
    ensures forall q :: s.executor(q) == Executor.Execute(engine(q))
    ensures s.schema == schema
  {
    DatabaseServer(q => Validator.Validate(q), q => Executor.Execute(engine(q)), schema)
  }

  /** End to end: a result set only comes back for a query the validator
      accepts, and then it carries at most `MAX_RESULT_ROWS` rows and counts
      them; every error reply carries at least one message, and a rejected
      query never reaches the engine. */
  lemma DeployedGuarantees(engine: string -> Executor.EngineOutcome, schema: SchemaManager, query: string)
    ensures var h := HandleRunQuery(Deployed(engine, schema), query);
      h.response.RowsResponse? ==>
        && Validator.Validate(query).valid
        && h.response.rowCount == |h.response.rows| <= Executor.MAX_RESULT_ROWS
        && (h.response.truncated <==> |engine(query).rows| > Executor.MAX_RESULT_ROWS)
    ensures var h := HandleRunQuery(Deployed(engine, schema), query);
      h.response.ErrorResponse? ==> h.response.messages != []
    ensures !Validator.Validate(query).valid ==>
      HandleRunQuery(Deployed(engine, schema), query).executorCalls == []
  {
    var s := Deployed(engine, schema);
    var v := Validator.Validate(query);
    assert s.validator(query) == v;
    assert s.executor(query) == Executor.Execute(engine(query));
  }

  /** A statement that begins with a blocked keyword, such as
      `DROP TABLE users`, is answered with an error whose messages name the
      keyword, and the engine never sees it. */
  lemma DeployedRejectsBlocked(engine: string -> Executor.EngineOutcome, schema: SchemaManager,
                               query: string, w: string)
    requires w in Validator.BLOCKED_KEYWORDS
    requires var n := Validator.Normalize(query);
      w <= n && (|n| == |w| || !Text.IsWordChar(n[|w|]))
    ensures var h := HandleRunQuery(Deployed(engine, schema), query);
      && h.response.ErrorResponse?
      && (exists m :: m in h.response.messages && Text.Contains(m, w))
      && h.executorCalls == []
  {
    Validator.RejectsBlockedStatement(query, w);
    assert Deployed(engine, schema).validator(query) == Validator.Validate(query);
  }
}

=== FILE: text.dfy ===
/** Characters and strings under ASCII semantics: the whitespace, word and
    letter-case rules that Python's `str` methods and its `re` module apply to
    ASCII text, plus joining and splitting on a separator. */
module Text {

  /** The characters for which Python's `str.isspace()` holds in the ASCII
      range: space, tab, line feed, vertical tab, form feed, carriage return
      and the four information separators 0x1C-0x1F. */
  const WHITESPACE: set<char> :=
    {' ', '\t', '\n', '\U{0B}', '\U{0C}', '\r', '\U{1C}', '\U{1D}', '\U{1E}', '\U{1F}'}

  predicate IsUpper(c: char) { 'A' <= c <= 'Z' }

  predicate IsLower(c: char) { 'a' <= c <= 'z' }

  /** The characters a regular-expression `\b` treats as word characters. */
  predicate IsWordChar(c: char) {
    IsUpper(c) || IsLower(c) || ('0' <= c <= '9') || c == '_'
  }

  /** `str.upper()` on one character: ASCII lower-case letters move up. */
  function ToUpper(c: char): char {
    if IsLower(c) then (c as int - 32) as char else c
  }

  /** `str.upper()`. */
  function Upper(s: string): (u: string)
    ensures |u| == |s|
    ensures forall i :: 0 <= i < |s| ==> u[i] == ToUpper(s[i])
  {
    if s == [] then [] else [ToUpper(s[0])] + Upper(s[1..])
  }

  /** `s.rstrip(chars)`: the longest prefix of `s` that does not end in a
      character of `chars`; everything cut off is made of `chars`. */
  function RStrip(s: string, chars: set<char>): (r: string)
    ensures r <= s
    ensures forall k :: |r| <= k < |s| ==> s[k] in chars
    ensures r == [] || r[|r| - 1] !in chars
    decreases |s|
  {
    if s != [] && s[|s| - 1] in chars then RStrip(s[..|s| - 1], chars) else s
  }

  /** `s.lstrip(chars)`: the longest suffix of `s` that does not start with a
      character of `chars`; everything cut off is made of `chars`. */
  function LStrip(s: string, chars: set<char>): (r: string)
    ensures |r| <= |s| && r == s[|s| - |r|..]
    ensures forall k :: 0 <= k < |s| - |r| ==> s[k] in chars
    ensures r == [] || r[0] !in chars
    decreases |s|
  {
    if s != [] && s[0] in chars then LStrip(s[1..], chars) else s
  }

  /** `t` occurs in `s` at `a`, and everything before and after that
      occurrence is whitespace. */
  predicate FramedByWhitespace(s: string, t: string, a: int) {
    && OccursAt(s, t, a)
    && (forall k :: 0 <= k < a ==> s[k] in WHITESPACE)
    && (forall k :: a + |t| <= k < |s| ==> s[k] in WHITESPACE)
  }

  /** `s.strip()`: the piece of `s` left after cutting whitespace from both
      ends. Only whitespace is cut, both ends of what is left are
      non-whitespace, and the result is empty exactly when `s` is all
      whitespace. */
  function Strip(s: string): (r: string)
    ensures exists a :: FramedByWhitespace(s, r, a)
    ensures r == [] <==> forall k :: 0 <= k < |s| ==> s[k] in WHITESPACE
    ensures r != [] ==> r[0] !in WHITESPACE && r[|r| - 1] !in WHITESPACE
  {
    var right := RStrip(s, WHITESPACE);
    var r := LStrip(right, WHITESPACE);
    StripFacts(s, right, r);
    r
  }

  /** What cutting whitespace first from the right and then from the left
      leaves: a piece of `s` framed by whitespace only, with non-whitespace
      ends. The hypotheses are `RStrip`'s and `LStrip`'s contracts. */
  lemma StripFacts(s: string, right: string, r: string)
    requires right <= s
    requires forall k :: |right| <= k < |s| ==> s[k] in WHITESPACE
    requires right == [] || right[|right| - 1] !in WHITESPACE
    requires |r| <= |right| && r == right[|right| - |r|..]
    requires forall k :: 0 <= k < |right| - |r| ==> right[k] in WHITESPACE
    requires r == [] || r[0] !in WHITESPACE
    ensures exists a :: FramedByWhitespace(s, r, a)
    ensures r == [] <==> forall k :: 0 <= k < |s| ==> s[k] in WHITESPACE
    ensures r != [] ==> r[0] !in WHITESPACE && r[|r| - 1] !in WHITESPACE
  {
    var a := |right| - |r|;
    forall k | 0 <= k < |r|
      ensures s[a + k] == r[k]
    {
      assert r[k] == right[a + k];
    }
    assert s[a..a + |r|] == r;
    assert FramedByWhitespace(s, r, a);
    if r != [] {
      assert r[|r| - 1] == right[|right| - 1];
      assert s[|right| - 1] == right[|right| - 1];
    }
  }

  /** Text that neither starts nor ends with whitespace is its own
      `strip()`. */
  lemma StripTrimmed(s: string)
    requires s != [] && s[0] !in WHITESPACE && s[|s| - 1] !in WHITESPACE
    ensures Strip(s) == s
  {
    var r := Strip(s);
    var a :| FramedByWhitespace(s, r, a);
    assert a == 0;
    assert a + |r| == |s|;
    assert r == s[0..|s|];
  }

  /** `sep.join(parts)`. */
  function Join(parts: seq<string>, sep: string): string
  {
    if |parts| == 0 then ""
    else if |parts| == 1 then parts[0]
    else parts[0] + sep + Join(parts[1..], sep)
  }

  /** `s.split(sep)` for a one-character separator: the pieces between
      consecutive separators, always at least one. */
  function Split(s: string, sep: char): (parts: seq<string>)
    ensures |parts| >= 1
  {
    if s == [] then [""]
    else
      var rest := Split(s[1..], sep);
      if s[0] == sep then [""] + rest else [[s[0]] + rest[0]] + rest[1..]
  }

  /** Two strings that differ only in the letter case of their characters. */
  predicate SameUpToCase(s: string, t: string) {
    |s| == |t| && forall i :: 0 <= i < |s| ==> ToUpper(s[i]) == ToUpper(t[i])
  }

  /** A set of characters that holds no letter; whitespace and ';' are such
      sets, so case cannot change membership in them. */
  predicate Caseless(chars: set<char>) {
    forall c :: c in chars ==> !IsUpper(c) && !IsLower(c)
  }

  lemma CaselessMembership(chars: set<char>, c: char, d: char)
    requires Caseless(chars) && ToUpper(c) == ToUpper(d)
    ensures c in chars <==> d in chars
  {
  }

  /** Stripping a caseless set of characters cuts case-equivalent strings at
      the same place. */
  lemma {:induction false} RStripSameUpToCase(s: string, t: string, chars: set<char>)
    requires Caseless(chars) && SameUpToCase(s, t)
    ensures SameUpToCase(RStrip(s, chars), RStrip(t, chars))
    decreases |s|
  {
    if s != [] {
      CaselessMembership(chars, s[|s| - 1], t[|t| - 1]);
      if s[|s| - 1] in chars {
        RStripSameUpToCase(s[..|s| - 1], t[..|t| - 1], chars);
      }
    }
  }

  lemma {:induction false} LStripSameUpToCase(s: string, t: string, chars: set<char>)
    requires Caseless(chars) && SameUpToCase(s, t)
    ensures SameUpToCase(LStrip(s, chars), LStrip(t, chars))
    decreases |s|
  {
    if s != [] {
      CaselessMembership(chars, s[0], t[0]);
      if s[0] in chars {
        LStripSameUpToCase(s[1..], t[1..], chars);
      }
    }
  }

  /** Upper-casing forgets exactly the letter case: case-equivalent strings
      normalise to the same text after `strip().upper()`. */
  lemma NormalizeSameUpToCase(s: string, t: string)
    requires SameUpToCase(s, t)
    ensures Upper(Strip(s)) == Upper(Strip(t))
  {
    assert Caseless(WHITESPACE);
    RStripSameUpToCase(s, t, WHITESPACE);
    LStripSameUpToCase(RStrip(s, WHITESPACE), RStrip(t, WHITESPACE), WHITESPACE);
  }

  /** A separator-free piece splits to itself. */
  lemma {:induction false} SplitWithoutSeparator(a: string, sep: char)
    requires sep !in a
    ensures Split(a, sep) == [a]
  {
    if a != [] {
      SplitWithoutSeparator(a[1..], sep);
      assert [a[0]] + a[1..] == a;
    }
  }

  /** Splitting stops at the first separator. */
  lemma {:induction false} SplitAtSeparator(a: string, b: string, sep: char)
    requires sep !in a
    ensures Split(a + [sep] + b, sep) == [a] + Split(b, sep)
  {
    var s := a + [sep] + b;
    if a == [] {
      assert s[1..] == b;
    } else {
      assert s[1..] == a[1..] + [sep] + b;
      SplitAtSeparator(a[1..], b, sep);
      assert [a[0]] + a[1..] == a;
    }
  }

  /** `sep.join` and `split(sep)` are inverse on a non-empty list of pieces
      none of which contains the separator. */
  lemma {:induction false} SplitJoin(parts: seq<string>, sep: char)
    requires |parts| > 0
    requires forall i :: 0 <= i < |parts| ==> sep !in parts[i]
    ensures Split(Join(parts, [sep]), sep) == parts
  {
    if |parts| == 1 {
      SplitWithoutSeparator(parts[0], sep);
    } else {
      var rest := Join(parts[1..], [sep]);
      SplitJoin(parts[1..], sep);
      SplitAtSeparator(parts[0], rest, sep);
      assert Join(parts, [sep]) == parts[0] + [sep] + rest;
      assert [parts[0]] + parts[1..] == parts;
    }
  }

  /** A character absent from every piece and from the separator is absent
      from the joined string. */
  lemma {:induction false} JoinAvoids(parts: seq<string>, sep: string, c: char)
    requires c !in sep
    requires forall i :: 0 <= i < |parts| ==> c !in parts[i]
    ensures c !in Join(parts, sep)
  {
    if |parts| > 1 {
      JoinAvoids(parts[1..], sep, c);
    }
  }

  /** `t` occurs in `s` starting at index `a`. */
  predicate OccursAt(s: string, t: string, a: int) {
    0 <= a <= |s| - |t| && s[a..a + |t|] == t
  }

  /** `t in s` for strings: `t` occurs in `s` as a contiguous piece. */
  ghost predicate Contains(s: string, t: string) {
    exists a :: OccursAt(s, t, a)
  }

  /** An occurrence survives putting text in front and behind. */
  lemma OccursInside(pre: string, s: string, post: string, t: string, a: int)
    requires OccursAt(s, t, a)
    ensures OccursAt(pre + s + post, t, |pre| + a)
  {
    assert (pre + s + post)[|pre| + a..|pre| + a + |t|] == s[a..a + |t|];
  }

  /** Every piece can be found again in the joined string. */
  lemma {:induction false} JoinContains(parts: seq<string>, sep: string, i: nat)
    requires i < |parts|
    ensures Contains(Join(parts, sep), parts[i])
  {
    var joined := Join(parts, sep);
    if |parts| == 1 || i == 0 {
      assert OccursAt(joined, parts[0], 0);
    } else {
      var rest := Join(parts[1..], sep);
      JoinContains(parts[1..], sep, i - 1);
      var a :| OccursAt(rest, parts[i], a);
      OccursInside(parts[0] + sep, rest, "", parts[i], a);
      assert parts[0] + sep + rest + "" == joined;
    }
  }

  /** An occurrence inside an occurrence is an occurrence. */
  lemma OccursWithin(s: string, line: string, t: string, b: int, a: int)
    requires OccursAt(s, line, b) && OccursAt(line, t, a)
    ensures OccursAt(s, t, b + a)
  {
    forall k | 0 <= k < |t|
      ensures s[b + a + k] == t[k]
    {
      assert s[b..b + |line|][a + k] == line[a + k] == t[k];
    }
    assert s[b + a..b + a + |t|] == t;
  }
}

=== FILE: validator.dfy ===
/** The lexical safety gate applied to query text before anything reaches
    the SQL engine (`QueryValidator.validate` in validator.py). */
module Validator {
  import opened Text
  import opened Ordering
  import opened Models

  /** Keywords whose presence as a whole word rejects a query. */
  const BLOCKED_KEYWORDS: set<string> :=
    {"DROP", "DELETE", "UPDATE", "INSERT", "ALTER", "TRUNCATE", "CREATE", "GRANT", "REVOKE"}


  // ---------------------------------------------------------------------
  // Word tokens: what `re.findall(r'\b[A-Z]+\b', s)` collects.
  // ---------------------------------------------------------------------

  /** The end of the maximal run of word characters that starts at `i`. */
  function RunEnd(s: string, i: nat): (j: nat)
    requires i <= |s|
    ensures i <= j <= |s|
    ensures forall k :: i <= k < j ==> IsWordChar(s[k])
    ensures j == |s| || !IsWordChar(s[j])
    decreases |s| - i
  {
    if i == |s| || !IsWordChar(s[i]) then i else RunEnd(s, i + 1)
  }

  predicate AllUpper(w: string) {
    forall k :: 0 <= k < |w| ==> IsUpper(w[k])
  }

  /** Position `i` does not fall between two word characters. */
  predicate NotInsideWord(s: string, i: nat)
    requires i <= |s|
  {
    i == 0 || i == |s| || !IsWordChar(s[i - 1]) || !IsWordChar(s[i])
  }

  /** The tokens of `s` that start at or after `i`: every maximal run of word
      characters made only of the letters A-Z. */
  function TokensFrom(s: string, i: nat): set<string>
    requires i <= |s|
    decreases |s| - i
  {
    if i == |s| then {}
    else if !IsWordChar(s[i]) then TokensFrom(s, i + 1)
    else
      var j := RunEnd(s, i);
      (if AllUpper(s[i..j]) then {s[i..j]} else {}) + TokensFrom(s, j)
  }

  /** `set(re.findall(r'\b[A-Z]+\b', s))`. */
  function Tokens(s: string): set<string> {
    TokensFrom(s, 0)
  }

  /** Reference reading of the pattern `\b[A-Z]+\b`: `s[a..b]` is a non-empty
      run of A-Z with a word boundary on each side. */
  predicate IsTokenSpan(s: string, a: int, b: int) {
    && 0 <= a < b <= |s|
    && (a == 0 || !IsWordChar(s[a - 1]))
    && (b == |s| || !IsWordChar(s[b]))
    && forall k :: a <= k < b ==> IsUpper(s[k])
  }

  /** `w` occurs in `s` as a whole upper-case word. */
  ghost predicate IsWholeWord(s: string, w: string) {
    exists a, b :: IsTokenSpan(s, a, b) && s[a..b] == w
  }

  lemma {:induction false} TokensFromComplete(s: string, i: nat, a: nat, b: nat)
    requires i <= a && i <= |s| && NotInsideWord(s, i) && IsTokenSpan(s, a, b)
    ensures s[a..b] in TokensFrom(s, i)
    decreases |s| - i
  {
    if !IsWordChar(s[i]) {
      assert a != i;
      TokensFromComplete(s, i + 1, a, b);
    } else {
      var j := RunEnd(s, i);
      if a == i {
        assert b == j;
        assert AllUpper(s[i..j]);
      } else {
        assert !IsWordChar(s[a - 1]);
        assert a > j;
        TokensFromComplete(s, j, a, b);
      }
    }
  }

  lemma {:induction false} TokensFromSound(s: string, i: nat, w: string) returns (a: nat, b: nat)
    requires i <= |s| && NotInsideWord(s, i) && w in TokensFrom(s, i)
    ensures i <= a && IsTokenSpan(s, a, b) && s[a..b] == w
    decreases |s| - i
  {
    if !IsWordChar(s[i]) {
      a, b := TokensFromSound(s, i + 1, w);
    } else {
      var j := RunEnd(s, i);
      if AllUpper(s[i..j]) && w == s[i..j] {
        a, b := i, j;
        assert forall k :: a <= k < b ==> s[k] == s[i..j][k - i];
      } else {
        a, b := TokensFromSound(s, j, w);
      }
    }
  }

  /** The tokenizer finds exactly the whole upper-case words of the text,
      wherever they stand (string literals included). */
  lemma TokensMatchPattern(s: string, w: string)
    ensures w in Tokens(s) <==> IsWholeWord(s, w)
  {
    if w in Tokens(s) {
      var a, b := TokensFromSound(s, 0, w);
    }
    if IsWholeWord(s, w) {
      var a, b :| IsTokenSpan(s, a, b) && s[a..b] == w;
      TokensFromComplete(s, 0, a, b);
    }
  }

  lemma TokensMatchPatternEverywhere(s: string)
    ensures forall w :: w in Tokens(s) <==> IsWholeWord(s, w)
  {
    forall w
      ensures w in Tokens(s) <==> IsWholeWord(s, w)
    {
      TokensMatchPattern(s, w);
    }
  }

  // ---------------------------------------------------------------------
  // The three checks.
  // ---------------------------------------------------------------------

  /** `query.strip().upper()`. */
  function Normalize(query: string): string {
    Upper(Strip(query))
  }

  /** The statement-kind check is a textual prefix test, so `WITHOUT ...`
      passes it too. */
  predicate StartsWithSelectOrWith(normalized: string) {
    "SELECT" <= normalized || "WITH" <= normalized
  }

  /** `sorted(tokens & BLOCKED_KEYWORDS)`: the blocked keywords standing as
      whole words in the text, each once, in increasing order. */
  function BlockedFound(normalized: string): (found: seq<string>)
    ensures StrictlySorted(found)
    ensures forall w :: w in found <==> w in BLOCKED_KEYWORDS && w in Tokens(normalized)
  {
    SortedSeq(Tokens(normalized) * BLOCKED_KEYWORDS)
  }

  /** The keywords reported are exactly the blocked keywords that stand as
      whole words in the normalised text, sorted and without repetition. */
  lemma BlockedFoundWholeWords(normalized: string)
    ensures StrictlySorted(BlockedFound(normalized))
    ensures forall w ::
      w in BlockedFound(normalized) <==> w in BLOCKED_KEYWORDS && IsWholeWord(normalized, w)
  {
    TokensMatchPatternEverywhere(normalized);
  }

  /** `query.rstrip().rstrip(";")`: the raw text with trailing whitespace and
      then every trailing ';' removed. */
  function StatementBody(query: string): string {
    RStrip(RStrip(query, WHITESPACE), {';'})
  }

  /** Reference reading of the semicolon rule: a ';' at `i`, later a
      character other than ';' at `j`, and at or after `j` a character that
      is not whitespace. */
  predicate SeparatorAt(q: string, i: int, j: int, k: int) {
    0 <= i < j <= k < |q| && q[i] == ';' && q[j] != ';' && q[k] !in WHITESPACE
  }

  ghost predicate HasSeparator(q: string) {
    exists i, j, k :: SeparatorAt(q, i, j, k)
  }

  /** A ';' survives the stripping exactly when some ';' is followed by a
      non-';' that is not part of the trailing whitespace; one unbroken run
      of ';' with nothing but whitespace after it is tolerated. */
  lemma SeparatorIff(q: string)
    ensures ';' in StatementBody(q) <==> HasSeparator(q)
  {
    var right := RStrip(q, WHITESPACE);
    var body := StatementBody(q);
    var w, e := |right|, |body|;
    assert body <= right && right <= q;
    if ';' in body {
      var i :| 0 <= i < e && body[i] == ';';
      assert body[e - 1] != ';';
      assert right[w - 1] !in WHITESPACE;
      assert SeparatorAt(q, i, e - 1, w - 1);
    }
    if HasSeparator(q) {
      var i, j, k :| SeparatorAt(q, i, j, k);
      assert k < w;
      assert j < e;
      assert body[i] == ';';
    }
  }

  // ---------------------------------------------------------------------
  // Reasons and the verdict.
  // ---------------------------------------------------------------------

  /** One reason for rejecting a query. */
  datatype Reason =
    | EmptyQuery
    | NotSelect
    | BlockedKeywords(found: seq<string>)
    | MultipleStatements

  /** The text reported for each reason. */
  function Message(r: Reason): string {
    match r
    case EmptyQuery => "Empty query"
    case NotSelect => "Only SELECT queries are allowed"
    case BlockedKeywords(found) => "Blocked keywords found: " + Join(found, ", ")
    case MultipleStatements => "Multiple statements not allowed"
  }

  /** The position of each kind of reason in the reporting order. */
  function Rank(r: Reason): nat {
    match r
    case EmptyQuery => 0
    case NotSelect => 1
    case BlockedKeywords(_) => 2
    case MultipleStatements => 3
  }

  /** The reasons the three checks on non-blank text add, in the order the
      checks run: statement kind, blocked keywords, multiple statements. */
  function CheckReasons(kindOk: bool, found: seq<string>, separator: bool): seq<Reason> {
    (if kindOk then [] else [NotSelect])
    + (if found != [] then [BlockedKeywords(found)] else [])
    + (if separator then [MultipleStatements] else [])
  }

  /** The reasons the checks collect. Blank text stops at the first check;
      otherwise every check runs. */
  function Reasons(query: string): seq<Reason> {
    var normalized := Normalize(query);
    if normalized == [] then [EmptyQuery]
    else
      CheckReasons(
        StartsWithSelectOrWith(normalized),
        BlockedFound(normalized),
        ';' in StatementBody(query))
  }

  function Messages(reasons: seq<Reason>): (ms: seq<string>)
    ensures |ms| == |reasons|
    ensures forall i :: 0 <= i < |reasons| ==> ms[i] == Message(reasons[i])
  {
    if reasons == [] then [] else [Message(reasons[0])] + Messages(reasons[1..])
  }

  /** `QueryValidator.validate`: the verdict is "valid" exactly when no
      reason was found, and at most three reasons are reported. */
  function Validate(query: string): (r: QueryValidationResult)
    ensures r.valid <==> r.errors == []
    ensures |r.errors| <= 3
  {
    var errors := Messages(Reasons(query));
    QueryValidationResult(|errors| == 0, errors)
  }

  // ---------------------------------------------------------------------
  // Properties of the validator.
  // ---------------------------------------------------------------------

  /** The first letter of each kind of message. */
  function Initial(r: Reason): char {
    match r
    case EmptyQuery => 'E'
    case NotSelect => 'O'
    case BlockedKeywords(_) => 'B'
    case MultipleStatements => 'M'
  }

  lemma MessageInitial(r: Reason)
    ensures |Message(r)| > 0 && Message(r)[0] == Initial(r)
  {
  }

  /** A reported text tells which kind of reason produced it. */
  lemma MessageDeterminesKind(r: Reason, s: Reason)
    requires Message(r) == Message(s)
    ensures Rank(r) == Rank(s)
  {
    MessageInitial(r);
    MessageInitial(s);
  }

  /** Each check adds its reason exactly when it fails, at most one reason
      each, in the fixed order. */
  lemma CheckReasonsFacts(kindOk: bool, found: seq<string>, separator: bool)
    ensures var rs := CheckReasons(kindOk, found, separator);
      && (NotSelect in rs <==> !kindOk)
      && ((exists f :: BlockedKeywords(f) in rs) <==> found != [])
      && (forall f :: BlockedKeywords(f) in rs ==> f == found)
      && (MultipleStatements in rs <==> separator)
      && EmptyQuery !in rs
      && (rs == [] <==> kindOk && found == [] && !separator)
      && forall i, j :: 0 <= i < j < |rs| ==> Rank(rs[i]) < Rank(rs[j])
  {
    var rs := CheckReasons(kindOk, found, separator);
    if found != [] {
      assert BlockedKeywords(found) in rs;
    }
  }

  /** Whitespace-only text is rejected with the single reason "Empty query"
      and nothing else, and no other text gets that verdict. */
  lemma EmptyQueryShortCircuits(q: string)
    ensures Validate(q) == QueryValidationResult(false, [Message(EmptyQuery)])
        <==> forall k :: 0 <= k < |q| ==> q[k] in WHITESPACE
  {
    var n := Normalize(q);
    assert n == [] <==> Strip(q) == [];
    var reasons := Reasons(q);
    if n != [] {
      CheckReasonsFacts(StartsWithSelectOrWith(n), BlockedFound(n), ';' in StatementBody(q));
      if Validate(q).errors == [Message(EmptyQuery)] {
        assert Message(reasons[0]) == Message(EmptyQuery);
        MessageDeterminesKind(reasons[0], EmptyQuery);
      }
    }
  }

  /** No blocked keyword stands as a whole word in `n`. */
  ghost predicate Unblocked(n: string) {
    forall a, b :: IsTokenSpan(n, a, b) ==> n[a..b] !in BLOCKED_KEYWORDS
  }

  /** No keyword is reported exactly when no token span of the text spells
      a blocked keyword. */
  lemma NothingBlockedIff(n: string)
    ensures BlockedFound(n) == [] <==> Unblocked(n)
  {
    var found := BlockedFound(n);
    BlockedFoundWholeWords(n);
    if found != [] {
      assert found[0] in found;
      var a, b :| IsTokenSpan(n, a, b) && n[a..b] == found[0];
    }
    forall a, b | IsTokenSpan(n, a, b) && n[a..b] in BLOCKED_KEYWORDS
      ensures found != []
    {
      assert IsWholeWord(n, n[a..b]);
      assert n[a..b] in found;
    }
  }

  /** A query is accepted exactly when, after trimming and upper-casing, it is
      non-empty, starts with SELECT or WITH, holds no blocked keyword as a
      whole word, and has no ';' followed by a character other than ';' and,
      at or after that, by a non-whitespace character. */
  lemma AcceptedIff(q: string)
    ensures var n := Normalize(q);
      Validate(q).valid
      <==> && n != []
           && StartsWithSelectOrWith(n)
           && Unblocked(n)
           && !HasSeparator(q)
  {
    var n := Normalize(q);
    SeparatorIff(q);
    if n != [] {
      CheckReasonsFacts(StartsWithSelectOrWith(n), BlockedFound(n), ';' in StatementBody(q));
      NothingBlockedIff(n);
    }
  }

  /** "Only SELECT queries are allowed" is reported exactly for non-blank
      text that does not start with SELECT or WITH. */
  lemma StatementKindReported(q: string)
    ensures var n := Normalize(q);
      NotSelect in Reasons(q) <==> n != [] && !StartsWithSelectOrWith(n)
  {
    var n := Normalize(q);
    if n != [] {
      CheckReasonsFacts(StartsWithSelectOrWith(n), BlockedFound(n), ';' in StatementBody(q));
    }
  }

  /** A blocked-keyword reason is reported exactly when a blocked keyword
      stands as a whole word in non-blank text, and it lists exactly those
      keywords, sorted and each once. */
  lemma BlockedKeywordsReported(q: string)
    ensures var n := Normalize(q);
      (exists found :: BlockedKeywords(found) in Reasons(q))
      <==> n != [] && exists w :: w in BLOCKED_KEYWORDS && IsWholeWord(n, w)
    ensures var n := Normalize(q);
      forall found :: BlockedKeywords(found) in Reasons(q) ==>
        && StrictlySorted(found)
        && forall w :: w in found <==> w in BLOCKED_KEYWORDS && IsWholeWord(n, w)
  {
    var n := Normalize(q);
    if n != [] {
      var found := BlockedFound(n);
      CheckReasonsFacts(StartsWithSelectOrWith(n), found, ';' in StatementBody(q));
      BlockedFoundWholeWords(n);
      if exists w :: w in BLOCKED_KEYWORDS && IsWholeWord(n, w) {
        var w :| w in BLOCKED_KEYWORDS && IsWholeWord(n, w);
        assert w in found;
      }
      if found != [] {
        assert found[0] in found;
      }
    }
  }

  /** "Multiple statements not allowed" is reported exactly for non-blank
      text with some ';' followed by a character other than ';' and, at or
      after that, by a non-whitespace character. */
  lemma MultipleStatementsReported(q: string)
    ensures MultipleStatements in Reasons(q) <==> Normalize(q) != [] && HasSeparator(q)
  {
    var n := Normalize(q);
    SeparatorIff(q);
    if n != [] {
      CheckReasonsFacts(StartsWithSelectOrWith(n), BlockedFound(n), ';' in StatementBody(q));
    }
  }

  /** Reasons are reported in the fixed order statement kind, blocked
      keywords, multiple statements, each kind at most once; "Empty query"
      only ever stands alone. */
  lemma ReasonsInOrder(q: string)
    ensures var reasons := Reasons(q);
      forall i, j :: 0 <= i < j < |reasons| ==> Rank(reasons[i]) < Rank(reasons[j])
    ensures EmptyQuery in Reasons(q) ==> Reasons(q) == [EmptyQuery]
  {
    var n := Normalize(q);
    if n != [] {
      CheckReasonsFacts(StartsWithSelectOrWith(n), BlockedFound(n), ';' in StatementBody(q));
    }
  }

  lemma SeparatorSameUpToCase(q1: string, q2: string)
    requires SameUpToCase(q1, q2)
    ensures HasSeparator(q1) ==> HasSeparator(q2)
  {
    if HasSeparator(q1) {
      var i, j, k :| SeparatorAt(q1, i, j, k);
      CaselessMembership({';'}, q1[i], q2[i]);
      CaselessMembership({';'}, q1[j], q2[j]);
      assert Caseless(WHITESPACE);
      CaselessMembership(WHITESPACE, q1[k], q2[k]);
      assert SeparatorAt(q2, i, j, k);
    }
  }

  /** Validation is case-insensitive: texts differing only in letter case get
      the same verdict and the same reasons. */
  lemma CaseInsensitive(q1: string, q2: string)
    requires SameUpToCase(q1, q2)
    ensures Validate(q1) == Validate(q2)
  {
    NormalizeSameUpToCase(q1, q2);
    SeparatorSameUpToCase(q1, q2);
    SeparatorSameUpToCase(q2, q1);
    SeparatorIff(q1);
    SeparatorIff(q2);
  }

  // ---------------------------------------------------------------------
  // The repository's examples.
  // ---------------------------------------------------------------------

  /** A blocked keyword at the head of normalised text, followed by a
      non-word character or by nothing, is a whole word there, and the text
      does not begin with SELECT or WITH. */
  lemma LeadingKeyword(n: string, w: string)
    requires w in BLOCKED_KEYWORDS
    requires w <= n && (|n| == |w| || !IsWordChar(n[|w|]))
    ensures IsWholeWord(n, w)
    ensures !StartsWithSelectOrWith(n)
  {
    assert AllUpper(w) && w[0] !in {'S', 'W'};
    assert n[0..|w|] == w && n[0] == w[0];
    assert IsTokenSpan(n, 0, |w|);
  }

  /** The blocked-keyword message names every keyword it lists. */
  lemma BlockedMessageNames(found: seq<string>, w: string)
    requires w in found
    ensures Contains(Message(BlockedKeywords(found)), w)
  {
    var i :| 0 <= i < |found| && found[i] == w;
    JoinContains(found, ", ", i);
    var a :| OccursAt(Join(found, ", "), w, a);
    OccursInside("Blocked keywords found: ", Join(found, ", "), "", w, a);
    assert "Blocked keywords found: " + Join(found, ", ") + "" == Message(BlockedKeywords(found));
  }

  /** Every reason found shows up as its message among the errors, and the
      query is invalid exactly when some reason was found. */
  lemma ReasonsReported(q: string)
    ensures forall r :: r in Reasons(q) ==> Message(r) in Validate(q).errors
    ensures !Validate(q).valid <==> Reasons(q) != []
  {
    forall r | r in Reasons(q)
      ensures Message(r) in Validate(q).errors
    {
      var i :| 0 <= i < |Reasons(q)| && Reasons(q)[i] == r;
      assert Validate(q).errors[i] == Message(r);
    }
  }

  /** A run of word characters is one token at most, so it is unblocked
      unless it is itself a blocked keyword. */
  lemma WordUnblocked(w: string)
    requires forall k :: 0 <= k < |w| ==> IsWordChar(w[k])
    requires w !in BLOCKED_KEYWORDS
    ensures Unblocked(w)
  {
    forall a, b | IsTokenSpan(w, a, b)
      ensures w[a..b] !in BLOCKED_KEYWORDS
    {
      assert a == 0 && b == |w|;
      assert w[a..b] == w;
    }
  }

  /** Text without capitals holds no token at all. */
  lemma GapUnblocked(g: string)
    requires forall k :: 0 <= k < |g| ==> !IsUpper(g[k])
    ensures forall a, b :: !IsTokenSpan(g, a, b)
    ensures Unblocked(g)
  {
    forall a, b
      ensures !IsTokenSpan(g, a, b)
    {
      if 0 <= a < |g| {
        assert !IsUpper(g[a]);
      }
    }
  }

  /** Two unblocked texts joined where a word cannot run across the seam
      stay unblocked: every token of the whole is a token of one side. */
  lemma ConcatUnblocked(x: string, y: string)
    requires Unblocked(x) && Unblocked(y)
    requires x == [] || y == [] || !IsWordChar(x[|x| - 1]) || !IsWordChar(y[0])
    ensures forall a, b :: IsTokenSpan(x + y, a, b) ==>
      || (b <= |x| && IsTokenSpan(x, a, b) && (x + y)[a..b] == x[a..b])
      || (|x| <= a && IsTokenSpan(y, a - |x|, b - |x|) && (x + y)[a..b] == y[a - |x|..b - |x|])
    ensures Unblocked(x + y)
  {
    var n := x + y;
    forall a, b | IsTokenSpan(n, a, b)
      ensures || (b <= |x| && IsTokenSpan(x, a, b) && n[a..b] == x[a..b])
              || (|x| <= a && IsTokenSpan(y, a - |x|, b - |x|) && n[a..b] == y[a - |x|..b - |x|])
    {
      SpanAcrossSeam(x, y, a, b);
      if b <= |x| {
        forall k | a <= k < b
          ensures IsUpper(x[k])
        {
          assert n[k] == x[k];
        }
        assert IsTokenSpan(x, a, b);
        assert n[a..b] == x[a..b];
      } else if a >= |x| {
        forall k | a - |x| <= k < b - |x|
          ensures IsUpper(y[k])
        {
          assert n[k + |x|] == y[k];
        }
        assert IsTokenSpan(y, a - |x|, b - |x|);
        assert n[a..b] == y[a - |x|..b - |x|];
      }
    }
  }

  /** A token that runs across the seam of `x + y` has word characters on
      both sides of the seam. */
  lemma SpanAcrossSeam(x: string, y: string, a: int, b: int)
    requires IsTokenSpan(x + y, a, b)
    ensures a < |x| < b ==> IsWordChar(x[|x| - 1]) && IsWordChar(y[0])
  {
    if a < |x| < b {
      assert IsUpper((x + y)[|x| - 1]) && IsUpper((x + y)[|x|]);
    }
  }

  /** Non-blank text that starts with SELECT or WITH, holds no blocked
      keyword as a whole word and has no ';' at all is accepted with no
      errors. */
  lemma AcceptsClean(q: string, n: string)
    requires Normalize(q) == n && n != [] && StartsWithSelectOrWith(n)
    requires Unblocked(n)
    requires ';' !in q
    ensures Validate(q) == QueryValidationResult(true, [])
  {
    assert forall i :: 0 <= i < |q| ==> q[i] != ';';
    AcceptedIff(q);
  }

  /** Normalisation of text with no surrounding whitespace is letter-wise
      upper-casing. */
  lemma NormalizesTo(q: string, n: string)
    requires q != [] && q[0] !in WHITESPACE && q[|q| - 1] !in WHITESPACE
    requires |q| == |n| && forall i :: 0 <= i < |q| ==> ToUpper(q[i]) == n[i]
    ensures Normalize(q) == n
  {
    StripTrimmed(q);
  }

  /** The repository's plain query `SELECT * FROM users` is accepted with no
      errors. */
  lemma AcceptsPlainSelect(q: string)
    requires q == "SELECT * FROM users"
    ensures Validate(q) == QueryValidationResult(true, [])
  {
    PlainSelectNormalized(q, "SELECT * FROM USERS");
    PlainSelectShape(q, "SELECT * FROM USERS");
    PlainSelectUnblocked("SELECT * FROM USERS", "SELECT", " * ", "FROM", " ", "USERS");
    AcceptsClean(q, "SELECT * FROM USERS");
  }

  lemma PlainSelectNormalized(q: string, n: string)
    requires q == "SELECT * FROM users" && n == "SELECT * FROM USERS"
    ensures Normalize(q) == n
  {
    NormalizesTo(q, n);
  }

  lemma PlainSelectShape(q: string, n: string)
    requires q == "SELECT * FROM users" && n == "SELECT * FROM USERS"
    ensures n != [] && StartsWithSelectOrWith(n) && ';' !in q
  {
    assert n[..6] == "SELECT";
  }

  /** `SELECT * FROM USERS` holds no blocked keyword: it is the words
      `SELECT`, `FROM` and `USERS` with gaps between them. The pieces are
      parameters bound by the requires, not local literals, because the
      verifier evaluates literal-valued locals far more expensively. */
  lemma PlainSelectUnblocked(n: string, a: string, b: string, c: string, d: string, e: string)
    requires n == "SELECT * FROM USERS"
    requires a == "SELECT" && b == " * " && c == "FROM" && d == " " && e == "USERS"
    ensures Unblocked(n)
  {
    assert n == a + (b + (c + (d + e)));
    WordUnblocked(e);
    GapUnblocked(d);
    ConcatUnblocked(d, e);
    WordUnblocked(c);
    ConcatUnblocked(c, d + e);
    GapUnblocked(b);
    ConcatUnblocked(b, c + (d + e));
    WordUnblocked(a);
    ConcatUnblocked(a, b + (c + (d + e)));
  }

  /** The repository's `DROP TABLE users` is rejected, with an error that
      names DROP. */
  lemma RejectsDropTable(q: string)
    requires q == "DROP TABLE users"
    ensures !Validate(q).valid
    ensures exists m :: m in Validate(q).errors && Contains(m, "DROP")
  {
    DropTableNormalized(q, "DROP TABLE USERS");
    DropTableShape("DROP TABLE USERS");
    RejectsBlockedStatement(q, "DROP");
  }

  lemma DropTableNormalized(q: string, n: string)
    requires q == "DROP TABLE users" && n == "DROP TABLE USERS"
    ensures Normalize(q) == n
  {
    NormalizesTo(q, n);
  }

  lemma DropTableShape(n: string)
    requires n == "DROP TABLE USERS"
    ensures "DROP" <= n && !IsWordChar(n[4])
  {
    assert n[..4] == "DROP";
  }

  /** A statement that begins with a blocked keyword, such as
      `DROP TABLE users` or `DELETE FROM users`, is rejected, both as not a
      SELECT and with an error whose text names the keyword. */
  lemma RejectsBlockedStatement(q: string, w: string)
    requires w in BLOCKED_KEYWORDS
    requires var n := Normalize(q); w <= n && (|n| == |w| || !IsWordChar(n[|w|]))
    ensures NotSelect in Reasons(q)
    ensures exists found :: BlockedKeywords(found) in Reasons(q) && w in found
    ensures !Validate(q).valid
    ensures exists m :: m in Validate(q).errors && Contains(m, w)
  {
    var n := Normalize(q);
    LeadingKeyword(n, w);
    StatementKindReported(q);
    BlockedKeywordsReported(q);
    var found :| BlockedKeywords(found) in Reasons(q);
    assert w in found;
    BlockedMessageNames(found, w);
    ReasonsReported(q);
  }

  /** The empty text and the blank text space-tab-newline are each rejected
      with the single reason "Empty query". */
  lemma RejectsEmpty()
    ensures Validate("") == QueryValidationResult(false, ["Empty query"])
    ensures Validate(" \t\n") == QueryValidationResult(false, ["Empty query"])
  {
    EmptyQueryShortCircuits(" \t\n");
  }

  /** The text the multi-statement check inspects, on the repository's
      examples: one unbroken run of ';' at the end is tolerated. */
  lemma TrailingSemicolonsTolerated()
    ensures ';' !in StatementBody("SELECT 1;")
    ensures ';' !in StatementBody("SELECT 1;;")
  {
  }

  /** Text with a ';' that is followed by another statement is rejected,
      and the errors say so. */
  lemma RejectsSeparatedStatements(q: string, i: int, j: int, k: int)
    requires SeparatorAt(q, i, j, k)
    ensures !Validate(q).valid
    ensures Message(MultipleStatements) in Validate(q).errors
  {
    assert q[k] !in WHITESPACE;
    assert Normalize(q) != [];
    MultipleStatementsReported(q);
    ReasonsReported(q);
  }

  /** A ';' between two statements survives the stripping, and so does a
      ';' that only a space separates from the trailing one: the space stops
      the stripping of trailing ';' before it reaches the first. */
  lemma InnerSemicolonsCaught()
    ensures ';' in StatementBody("SELECT 1; DROP TABLE x")
    ensures ';' in StatementBody("SELECT 1; ;")
  {
    var q1, q2 := "SELECT 1; DROP TABLE x", "SELECT 1; ;";
    assert SeparatorAt(q1, 8, 9, 10);
    SeparatorIff(q1);
    assert SeparatorAt(q2, 8, 9, 10);
    SeparatorIff(q2);
  }

  /** `SELECT 1; DROP TABLE x` is rejected with "Multiple statements not
      allowed". */
  lemma RejectsStackedDrop()
    ensures var v := Validate("SELECT 1; DROP TABLE x");
      !v.valid && "Multiple statements not allowed" in v.errors
  {
    RejectsSeparatedStatements("SELECT 1; DROP TABLE x", 8, 9, 10);
  }

  /** `SELECT 1; ;` is rejected with "Multiple statements not allowed". */
  lemma RejectsSpacedSemicolons()
    ensures var v := Validate("SELECT 1; ;");
      !v.valid && "Multiple statements not allowed" in v.errors
  {
    RejectsSeparatedStatements("SELECT 1; ;", 8, 9, 10);
  }
}

=== FILE: wrappers.dfy ===
/** Failure-carrying datatypes shared by the rest of the model. */
module Wrappers {

  /** A value that may be absent; models Python's `X | None`. */
  datatype Option<+T> = None | Some(value: T)

  /** Either a value or a failure message; models a call that may raise. */
  datatype Result<+T, +E> = Success(value: T) | Failure(error: E)
}
